=== FILE: README.md ===
# Polyglot flashcards: review scheduling model

A Dafny model of the review-scheduling core of the polyglot flashcard app
(`polyglot_card.py`). The app stores Chinese words with Russian, French and
English translations. It shows the words that are due one card at a time.
It grades each answer automatically from how long the card stayed on
screen. It then reschedules the word with a linear spaced-repetition rule.

The Streamlit `main()` keeps its state in ambient session variables. Here
that state is an explicit record, and every step is a pure function from
the old state to the new one:

- `Vocabulary`: the stored entry (`cn`, one record per language, `level`, `next_review`) and the lookup by word.
- `Scheduling`: `update_word_stats`, the level and interval rule for the grades forgot, fuzzy and easy.
- `DueQueue`: the due filter and the stable ascending sort by due instant.
- `Review`: the session record (`current_index`, `card_flipped`, `start_time`, `current_cn`) and its steps. These are the render-time clamp and resync, the flip toggle, the dwell-time grading and `navigate_card`.
- `AddWord`: the sidebar's add-word action. The language model's answer is a parameter.
- `Loading`: the `ipa` normalisation applied after the collection is read.
- `Scenarios`: worked examples, among them the skipped card described below.

Time is a parameter. `now` is the wall clock in milliseconds. Due instants
are whole seconds, `WallSeconds(now) = now / 1000`, as the
`%Y-%m-%d %H:%M:%S` strings keep them. The source compares those strings
with `<=` and sorts them. For fixed-width timestamps that ordering is the
same as the ordering of the integers, and the model relies on this.

Python's `%` and Dafny's `%` agree for a positive modulus: both return a
value in `[0, n)`. So `(current_index + direction) % words_due` is written
as it stands.

One consequence, proved in `Scenarios.EasyAnswerSkipsFollowingCard`:
navigation advances the index modulo the queue length seen at render time.
When the graded card then leaves the due queue, the next render skips the
card that followed it. Say A, B and C are due and A is answered easily at
position 0. The index becomes 1, the queue is now B, C, and C is shown.

## Model

| member | source | states |
|---|---|---|
| Vocabulary.FindWord | polyglot_card.py:386 | Finds the first entry whose `cn` matches, or reports that none does. It returns `None` exactly when no entry has that word. |
| Vocabulary.FindWordIsOnlyMatch | polyglot_card.py:386 | When words are unique, the entry found is the only one with that word. |
| Scheduling.ReviewEntry | polyglot_card.py:195-219 | Forgot sets level 0, due now. Fuzzy sets level max(0, L-1), due in 720 minutes. Easy sets level L+1, due in 10·(L+1) minutes. A missing level counts as 0. The word and the language records do not change. |
| Scheduling.ReviewLevelNonNegative | polyglot_card.py:199-213 | The level is never negative after forgot or fuzzy. It is not negative after easy either when the stored level was not negative. |
| Scheduling.ReviewDueAgain | polyglot_card.py:199-217 | For an entry whose stored level is not negative: a forgotten entry is due at once, a fuzzy or easy one is not due at the review instant. Each becomes due exactly when its interval has passed. |
| Scheduling.ReviewMonotoneInQuality | polyglot_card.py:199-213 | For an entry whose stored level is not negative, a better grade never gives a lower level (from a negative level it can: from -5, fuzzy gives 0 and easy gives -4). Forgetting is never scheduled later than another grade. |
| Scheduling.EasySoonerThanFuzzy | polyglot_card.py:204-214 | An easy answer brings the word back sooner than a fuzzy one exactly when the stored level is below 71. |
| Scheduling.EasyStreak | polyglot_card.py:209-217 | After k easy answers in a row from level L, the level is L+k and the interval is 10·(L+k) minutes. |
| DueQueue.DueWords | polyglot_card.py:334-338 | The queue is sorted ascending by due instant. It holds exactly the due entries, with their multiplicities. Entries due at the same second keep their collection order, so the sort is stable. |
| DueQueue.DueMultiset | polyglot_card.py:336 | The filter keeps each due entry as often as the collection holds it and drops every entry that is not due. |
| DueQueue.DueWithReview | polyglot_card.py:336 | The filter keeps, in order, every group of entries due at the same past second. |
| DueQueue.SortMultiset | polyglot_card.py:335-338 | The sort is a permutation of its input. |
| DueQueue.SortSorted | polyglot_card.py:335-338 | The sort output is ascending by due instant. |
| DueQueue.SortStable | polyglot_card.py:335-338 | The sort keeps the input order of entries due at the same second, as Python's stable `sorted` does. |
| DueQueue.SortedStableUnique | polyglot_card.py:335-338 | Two sorted sequences that agree on every same-instant group are equal. |
| DueQueue.DueWordsUnique | polyglot_card.py:334-338 | Any sorted, stable arrangement of the due entries is the computed queue, so recomputing it always gives the same order. |
| Review.Start | polyglot_card.py:252-258 | A freshly loaded session starts at index 0, face up, with no remembered card, no timer and an empty API key. |
| Review.Advance | polyglot_card.py:360 | A move stays inside the queue and wraps round at both ends. |
| Review.AdvanceBackAndForth | polyglot_card.py:397 | One move forward and one move back return to the same index. |
| Review.InferQuality | polyglot_card.py:372-381 | Easy exactly when the dwell is under 5 s and the card was not flipped. Forgot exactly when the dwell is over 10 s, flipped or not. Fuzzy otherwise. |
| Review.InferQualityAntitoneInDwell | polyglot_card.py:373-381 | Staying on the card longer never gives a better grade. |
| Review.InferQualityFlipNeverHelps | polyglot_card.py:373-381 | Flipping the card never gives a better grade. |
| Review.Clamp | polyglot_card.py:347-348 | With a non-empty queue the index is inside it afterwards. An index already inside is kept. Only the index changes. |
| Review.Resync | polyglot_card.py:415-418 | Afterwards the session remembers the rendered card. A newly shown card restarts the timer and is face up. A card already remembered is left alone. |
| Review.ResyncIdempotent | polyglot_card.py:415-418 | Rendering the same card again does not restart its timer. |
| Review.Flip | polyglot_card.py:483-485 | The flip toggles the flag and changes nothing else. |
| Review.FlipInvolution | polyglot_card.py:483-485 | Flipping twice restores the session. |
| Review.Render | polyglot_card.py:334-418 | The screen is idle exactly when nothing is due. Otherwise it shows the queue card at the clamped index: the stored index when it is inside the queue, position 0 when it is past the end. That card is due and in the collection, and the session remembers it. A newly shown card (or one shown with no timer yet) restarts the timer and is face up; otherwise the session keeps its timer and flip flag. |
| Review.RenderStable | polyglot_card.py:334-418 | Rendering again in the same second with no step in between shows the same card at the same position, and the timer is not restarted. |
| Review.Navigate | polyglot_card.py:357-400 | With a stale remembered card, the index moves, the card turns face up and the timer restarts, but no entry is graded or changed. Otherwise the dwell grades the card and only the first entry with that word (no earlier entry has it) is rescheduled. The index moves modulo the render's queue length, the card is face up and the timer restarts. With no entry for the word nothing changes. The length and the words of the collection are kept, and so is an index inside the queue. |
| Review.NavigateTouchesOnlyShownWord | polyglot_card.py:384-390 | With unique words, navigation changes no entry of another word, and the words stay unique. |
| Review.RenderThenNavigateGrades | polyglot_card.py:404-418 | Pressing previous or next on the card just rendered always grades it. The index stays in the queue, and the press restarts the timer (the render that follows restarts it again when it shows a different word). |
| Review.NavigateThenRenderRestartsTimer | polyglot_card.py:396-418 | A graded press sets the timer to the press instant but keeps the graded word remembered. So the next render restarts the timer at the render instant, face up, when it shows a different word, and keeps the press instant when it shows the same word. |
| AddWord.WithIpaKey | polyglot_card.py:309-311 | A missing `ipa` becomes null. Every other value, including an empty string, is kept. |
| AddWord.NewEntry | polyglot_card.py:306-314 | The new entry has the word, all three languages, level 0 and is due now. |
| AddWord.Add | polyglot_card.py:289-323 | A word is added exactly when the AI is enabled, the word is non-empty and new, and the model's answer has ru, fr and en. Then exactly one entry is appended and the session goes back to index 0, face up. Otherwise the collection and session do not change. The status says which check failed: no API key, an empty word, a duplicate, or a failed generation (no answer, or one lacking ru, fr or en, for a new word), and only a failed generation clears the API key. Unique words stay unique. |
| AddWord.AddedWordIsDue | polyglot_card.py:312-318 | A word just added is in the due queue at once, and the next render shows the first card. |
| AddWord.AddTwiceIsDuplicate | polyglot_card.py:297-300 | Adding a word a second time is rejected as a duplicate and changes nothing. |
| Loading.NormalizeRecord | polyglot_card.py:184-189 | A missing or empty `ipa` becomes null. Any other record is unchanged. |
| Loading.NormalizeIpa | polyglot_card.py:179-192 | A missing or empty `ipa` becomes null, so afterwards no present language has a missing or empty `ipa`. The count, order, words, levels, due instants, language keys, other record fields and non-empty `ipa` values are all kept. |
| Loading.NormalizeFixesNormal | polyglot_card.py:179-190 | Already-normal data is left exactly as it is. |
| Loading.StartFromLoad | polyglot_card.py:252-255 | The session starts on the loader's output, so every language record in it has a null or non-empty `ipa`, and no entry is lost. |
| Loading.NormalizeIdempotent | polyglot_card.py:179-190 | Normalising twice is the same as normalising once. |
| Scenarios.EasyFromLevelTwo | polyglot_card.py:209-217 | An overdue level-2 word answered easily goes to level 3, due in 30 minutes. |
| Scenarios.DwellExamples | polyglot_card.py:373-381 | 3 s unflipped is easy, 3 s flipped is fuzzy, and 15 s is forgot. |
| Scenarios.EasyAnswerSkipsFollowingCard | polyglot_card.py:357-400 | With A, B, C due and A answered easily at position 0, the next render shows C and skips B. |

## Left out

- The Streamlit UI and styling (`apply_compact_styles`, columns, expanders, toasts, the `rerun_pending` rerun loop) are left out. They only present state.
- `generate_content_with_llm` is left out because it is an HTTP client. Only its result enters the model, as an optional map from language to record passed to `AddWord.Add`.
- `generate_base64_audio` (gTTS and base64 embedding) is left out because it is a foreign library call.
- `save_data` and `load_data`'s file reading, including the seed-file fallback, are left out because they are file I/O. Only the `ipa` normalisation loop of `load_data` is modelled.
- The sidebar's API-key text field (lines 270-280) is left out; the key is a field of the state.
- Reading `datetime.now()` and `time.time()` is left out. A single millisecond clock value is a parameter. The source reads two clocks: local time for due instants and epoch time for dwell. The model treats them as one.
- Dwell time is an integer number of milliseconds rather than a float. It is only compared with 5 s and 10 s, so the model is exact at millisecond granularity.
- The `quality_text` labels are left out because they are user feedback only.
- Deleting words and invalidating the audio cache are left out: the source has no delete operation.
- Scheduling.ReviewEntry: quality is a three-valued datatype. So the source's `else` branch, which treats any value other than 0 and 1 as easy, is modelled only for 2. `navigate_card` never passes anything else.
- Vocabulary.Entry: only the keys `cn`, `ru`, `fr`, `en`, `level` and `next_review` are modelled. Record fields other than `ipa` are plain strings, so their absence (shown as "missing" when rendered) is not modelled.
- Review.Navigate: the source raises an error when the grading branch runs with no `start_time`. The model excludes this with `Valid` (a remembered card always has a start time), and every step keeps `Valid` true.

=== FILE: add_word.dfy ===
/**
 The sidebar's "generate and save" action: a new Chinese word is enriched by
 the language model (whose answer is a parameter here) and appended to the
 collection as a fresh, immediately due entry.
 */
module AddWord {

  import opened Options
  import opened Vocabulary
  import opened DueQueue
  import opened Review

  datatype AddStatus = AiDisabled | EmptyWord | Duplicate | GenerationFailed | Added

  datatype Addition = Addition(app: App, status: AddStatus)

  /** The model's answer is usable only with all three languages present. */
  predicate Complete(generated: map<Lang, LangRecord>)
  {
    Ru in generated && Fr in generated && En in generated
  }

  /** The generated record with its `ipa` key made present: a missing key
      becomes null, anything else (an empty string too) is kept. */
  function WithIpaKey(rec: LangRecord): (r: LangRecord)
    ensures r.ipa != Absent
    ensures rec.ipa != Absent ==> r == rec
    ensures r.(ipa := rec.ipa) == rec
  {
    if rec.ipa == Absent then rec.(ipa := Null) else rec
  }

  /** The entry stored for a new word: level 0, due at second `now`. */
  function NewEntry(word: string, generated: map<Lang, LangRecord>, now: int): (e: Entry)
    requires Complete(generated)
    ensures e.cn == word && e.level == Some(0) && e.nextReview == now
    ensures e.langs.Keys == Langs
    ensures forall l :: l in Langs ==> e.langs[l] == WithIpaKey(generated[l])
  {
    Entry(word, map[Ru := WithIpaKey(generated[Ru]), Fr := WithIpaKey(generated[Fr]), En := WithIpaKey(generated[En])], Some(0), now)
  }

  /** The button handler at wall-clock millisecond `now`. `generated` is the
      language model's answer for `word`, `None` when the call failed; it is
      consulted only once the word passed the other checks. */
  function Add(app: App, word: string, generated: Option<map<Lang, LangRecord>>, now: int): (r: Addition)
    ensures r.status == Added <==>
              && app.apiKey != "" && word != "" && !HasWord(app.data, word)
              && generated.Some? && Complete(generated.value)
    ensures r.status == Added ==>
              && |r.app.data| == |app.data| + 1
              && r.app.data[..|app.data|] == app.data
              && r.app.data[|app.data|] == NewEntry(word, generated.value, WallSeconds(now))
              && r.app.session == app.session.(currentIndex := 0, cardFlipped := false)
              && r.app.apiKey == app.apiKey
    ensures r.status != Added ==> r.app.data == app.data && r.app.session == app.session
    ensures r.status == GenerationFailed ==> r.app.apiKey == ""
    ensures r.status != GenerationFailed ==> r.app.apiKey == app.apiKey
    ensures r.status == AiDisabled <==> app.apiKey == ""
    ensures r.status == EmptyWord <==> app.apiKey != "" && word == ""
    ensures r.status == GenerationFailed <==>
              && app.apiKey != "" && word != "" && !HasWord(app.data, word)
              && !(generated.Some? && Complete(generated.value))
    ensures r.status == Duplicate <==> app.apiKey != "" && word != "" && HasWord(app.data, word)
    ensures UniqueWords(app.data) ==> UniqueWords(r.app.data)
    ensures Valid(app.session) ==> Valid(r.app.session)
  {
    if app.apiKey == "" then Addition(app, AiDisabled)
    else if word == "" then Addition(app, EmptyWord)
    else if HasWord(app.data, word) then Addition(app, Duplicate)
    else if generated.Some? && Complete(generated.value) then
      var e := NewEntry(word, generated.value, WallSeconds(now));
      var data := app.data + [e];
      assert data[..|app.data|] == app.data;
      var session := app.session.(currentIndex := 0, cardFlipped := false);
      Addition(App(data, session, app.apiKey), Added)
    else Addition(app.(apiKey := ""), GenerationFailed)
  }

  /** A word just added is in the due queue of the same second, and the
      next render shows the first card of that queue. */
  lemma AddedWordIsDue(app: App, word: string, generated: Option<map<Lang, LangRecord>>, now: int)
    requires Add(app, word, generated, now).status == Added
    ensures var r := Add(app, word, generated, now);
            && r.app.data[|app.data|] in DueWords(r.app.data, WallSeconds(now))
            && Render(r.app, now).view.Card?
            && Render(r.app, now).view.position == 0
  {
  }

  /** Adding the same word a second time is rejected as a duplicate and
      changes nothing, whatever the model answers then. */
  lemma AddTwiceIsDuplicate(app: App, word: string, g1: Option<map<Lang, LangRecord>>,
                            g2: Option<map<Lang, LangRecord>>, t1: int, t2: int)
    requires Add(app, word, g1, t1).status == Added
    ensures var once := Add(app, word, g1, t1).app;
            var twice := Add(once, word, g2, t2);
            twice.status == Duplicate && twice.app == once
  {
  }

}

=== FILE: due_queue.dfy ===
/**
 The due queue of the review screen: the entries whose due instant has
 passed, stably sorted ascending by that instant (earliest first, ties in
 collection order).
 */
module DueQueue {

  import opened Vocabulary

  /** The due entries of `s`, in collection order. */
  function Due(s: seq<Entry>, now: int): (r: seq<Entry>)
    ensures |r| <= |s|
    ensures forall i :: 0 <= i < |r| ==> IsDue(r[i], now)
  {
    if |s| == 0 then []
    else (if IsDue(s[0], now) then [s[0]] else []) + Due(s[1..], now)
  }

  /** The entries of `s` due exactly at second `t`, in their order in `s`.
      A sort is stable when it keeps every such subsequence. */
  function WithReview(s: seq<Entry>, t: int): seq<Entry>
  {
    if |s| == 0 then []
    else (if s[0].nextReview == t then [s[0]] else []) + WithReview(s[1..], t)
  }

  ghost predicate Sorted(s: seq<Entry>)
  {
    forall i, j :: 0 <= i < j < |s| ==> s[i].nextReview <= s[j].nextReview
  }

  /** Places `e` in front of the first entry of `s` that is due no earlier. */
  function Insert(e: Entry, s: seq<Entry>): seq<Entry>
  {
    if |s| == 0 then [e]
    else if e.nextReview <= s[0].nextReview then [e] + s
    else [s[0]] + Insert(e, s[1..])
  }

  /** Insertion sort by due instant. */
  function SortByReview(s: seq<Entry>): seq<Entry>
  {
    if |s| == 0 then [] else Insert(s[0], SortByReview(s[1..]))
  }

  /** The queue shown by the review screen at wall-clock second `now`. */
  function DueWords(data: seq<Entry>, now: int): (q: seq<Entry>)
    ensures Sorted(q)
    ensures forall i :: 0 <= i < |q| ==> IsDue(q[i], now)
    ensures forall e :: multiset(q)[e] == if IsDue(e, now) then multiset(data)[e] else 0
    ensures forall t :: WithReview(q, t) == if t <= now then WithReview(data, t) else []
  {
    DueMultiset(data, now);
    SortMultiset(Due(data, now));
    SortSorted(Due(data, now));
    SortStable(Due(data, now));
    DueWithReview(data, now);
    var q := SortByReview(Due(data, now));
    assert forall i :: 0 <= i < |q| ==> q[i] in multiset(q);
    q
  }

  lemma {:induction false} DueMultiset(s: seq<Entry>, now: int)
    ensures forall e :: multiset(Due(s, now))[e] == if IsDue(e, now) then multiset(s)[e] else 0
  {
    if |s| > 0 {
      DueMultiset(s[1..], now);
      assert s == [s[0]] + s[1..];
    }
  }

  lemma {:induction false} DueWithReview(s: seq<Entry>, now: int)
    ensures forall t :: WithReview(Due(s, now), t) == if t <= now then WithReview(s, t) else []
  {
    if |s| > 0 {
      DueWithReview(s[1..], now);
      forall t
        ensures WithReview(Due(s, now), t) == if t <= now then WithReview(s, t) else []
      {
        WithReviewAppend((if IsDue(s[0], now) then [s[0]] else []), Due(s[1..], now), t);
      }
    }
  }

  lemma {:induction false} WithReviewAppend(a: seq<Entry>, b: seq<Entry>, t: int)
    ensures WithReview(a + b, t) == WithReview(a, t) + WithReview(b, t)
  {
    if |a| > 0 {
      WithReviewAppend(a[1..], b, t);
      assert (a + b)[1..] == a[1..] + b;
    } else {
      assert a + b == b;
    }
  }

  lemma {:induction false} InsertMultiset(e: Entry, s: seq<Entry>)
    ensures multiset(Insert(e, s)) == multiset(s) + multiset{e}
  {
    if |s| > 0 && e.nextReview > s[0].nextReview {
      InsertMultiset(e, s[1..]);
      assert s == [s[0]] + s[1..];
    }
  }

  lemma {:induction false} InsertSorted(e: Entry, s: seq<Entry>)
    requires Sorted(s)
    ensures Sorted(Insert(e, s))
    ensures |Insert(e, s)| == |s| + 1
    ensures Insert(e, s)[0] == e || (|s| > 0 && Insert(e, s)[0] == s[0])
  {
    if |s| > 0 && e.nextReview > s[0].nextReview {
      InsertSorted(e, s[1..]);
    }
  }

  lemma {:induction false} InsertWithReview(e: Entry, s: seq<Entry>, t: int)
    ensures WithReview(Insert(e, s), t) == (if e.nextReview == t then [e] else []) + WithReview(s, t)
  {
    if |s| == 0 {
    } else if e.nextReview <= s[0].nextReview {
      assert ([e] + s)[1..] == s;
    } else {
      InsertWithReview(e, s[1..], t);
      assert ([s[0]] + Insert(e, s[1..]))[1..] == Insert(e, s[1..]);
    }
  }

  lemma {:induction false} SortMultiset(s: seq<Entry>)
    ensures multiset(SortByReview(s)) == multiset(s)
  {
    if |s| > 0 {
      SortMultiset(s[1..]);
      InsertMultiset(s[0], SortByReview(s[1..]));
      assert s == [s[0]] + s[1..];
    }
  }

  lemma {:induction false} SortSorted(s: seq<Entry>)
    ensures Sorted(SortByReview(s))
  {
    if |s| > 0 {
      SortSorted(s[1..]);
      InsertSorted(s[0], SortByReview(s[1..]));
    }
  }

  /** The insertion sort is stable: it keeps the collection order of
      every group of entries due at the same second. */
  lemma {:induction false} SortStable(s: seq<Entry>)
    ensures forall t :: WithReview(SortByReview(s), t) == WithReview(s, t)
  {
    if |s| > 0 {
      SortStable(s[1..]);
      forall t
        ensures WithReview(SortByReview(s), t) == WithReview(s, t)
      {
        InsertWithReview(s[0], SortByReview(s[1..]), t);
      }
    }
  }

  lemma {:induction false} WithReviewMembers(s: seq<Entry>, t: int)
    ensures forall x :: x in WithReview(s, t) ==> x in s && x.nextReview == t
  {
    if |s| > 0 {
      WithReviewMembers(s[1..], t);
    }
  }

  lemma WithReviewHead(s: seq<Entry>)
    requires |s| > 0
    ensures WithReview(s, s[0].nextReview) != []
  {
  }

  /** Sortedness and stability pin the queue down: two sorted sequences
      that agree on every group of equal due instants are the same. So the
      due queue is the only stable ascending arrangement of the due entries. */
  lemma {:induction false} SortedStableUnique(a: seq<Entry>, b: seq<Entry>)
    requires Sorted(a) && Sorted(b)
    requires forall t :: WithReview(a, t) == WithReview(b, t)
    ensures a == b
  {
    if |a| == 0 || |b| == 0 {
      var c := if |a| == 0 then b else a;
      if |c| > 0 {
        WithReviewHead(c);
        assert false;
      }
      return;
    }
    var ka, kb := a[0].nextReview, b[0].nextReview;
    WithReviewMembers(a, kb);
    WithReviewMembers(b, ka);
    assert WithReview(b, ka)[0] in WithReview(b, ka);
    assert WithReview(a, kb)[0] in WithReview(a, kb);
    assert ka == kb;
    assert a[0] == WithReview(a, ka)[0] == WithReview(b, ka)[0] == b[0];
    forall t
      ensures WithReview(a[1..], t) == WithReview(b[1..], t)
    {
      var p := if a[0].nextReview == t then [a[0]] else [];
      assert WithReview(a, t) == p + WithReview(a[1..], t);
      assert WithReview(b, t) == p + WithReview(b[1..], t);
      assert (p + WithReview(a[1..], t))[|p|..] == WithReview(a[1..], t);
      assert (p + WithReview(b[1..], t))[|p|..] == WithReview(b[1..], t);
    }
    SortedStableUnique(a[1..], b[1..]);
    assert a == [a[0]] + a[1..];
    assert b == [b[0]] + b[1..];
  }

  /** Any sorted queue that keeps every same-instant group of the due
      entries in collection order is exactly the computed due queue. */
  lemma DueWordsUnique(data: seq<Entry>, now: int, q: seq<Entry>)
    requires Sorted(q)
    requires forall t :: WithReview(q, t) == if t <= now then WithReview(data, t) else []
    ensures q == DueWords(data, now)
  {
    SortedStableUnique(q, DueWords(data, now));
  }

}

=== FILE: loading.dfy ===
/**
 The normalisation applied to every entry after the collection is read:
 each present language record ends up with an `ipa` that is null or a
 non-empty string.
 */
module Loading {

  import opened Vocabulary
  import Review

  predicate IpaNormal(rec: LangRecord)
  {
    rec.ipa != Absent && rec.ipa != Text("")
  }

  /** Every present language record of every entry has a normal `ipa`. */
  predicate Normalized(data: seq<Entry>)
  {
    forall i, l :: 0 <= i < |data| && l in data[i].langs ==> IpaNormal(data[i].langs[l])
  }

  /** A missing `ipa` key becomes null, and so does an empty string. */
  function NormalizeRecord(rec: LangRecord): (r: LangRecord)
    ensures IpaNormal(r)
    ensures r.(ipa := rec.ipa) == rec
    ensures IpaNormal(rec) ==> r == rec
    ensures !IpaNormal(rec) ==> r.ipa == Null
  {
    match rec.ipa
    case Absent => rec.(ipa := Null)
    case Text(s) => if s == "" then rec.(ipa := Null) else rec
    case Null => rec
  }

  function NormalizeEntry(e: Entry): Entry
  {
    e.(langs := map l | l in e.langs :: NormalizeRecord(e.langs[l]))
  }

  /** The loaded collection, entry by entry in the same order. */
  function NormalizeIpa(data: seq<Entry>): (r: seq<Entry>)
    ensures |r| == |data| && Normalized(r)
    ensures forall i :: 0 <= i < |data| ==>
              && r[i].cn == data[i].cn && r[i].level == data[i].level
              && r[i].nextReview == data[i].nextReview
              && r[i].langs.Keys == data[i].langs.Keys
    ensures forall i, l :: 0 <= i < |data| && l in data[i].langs ==>
              && r[i].langs[l].(ipa := data[i].langs[l].ipa) == data[i].langs[l]
              && (IpaNormal(data[i].langs[l]) ==> r[i].langs[l] == data[i].langs[l])
              && (!IpaNormal(data[i].langs[l]) ==> r[i].langs[l].ipa == Null)
  {
    seq(|data|, i requires 0 <= i < |data| => NormalizeEntry(data[i]))
  }

  /** Data that is already normal is left exactly as it is; in particular
      normalising twice is the same as normalising once. */
  lemma NormalizeFixesNormal(data: seq<Entry>)
    requires Normalized(data)
    ensures NormalizeIpa(data) == data
  {
    var r := NormalizeIpa(data);
    forall i | 0 <= i < |data|
      ensures r[i] == data[i]
    {
      assert r[i].langs == data[i].langs;
    }
  }

  lemma NormalizeIdempotent(data: seq<Entry>)
    ensures NormalizeIpa(NormalizeIpa(data)) == NormalizeIpa(data)
  {
    NormalizeFixesNormal(NormalizeIpa(data));
  }

  /** The session starts on the loader's output, so every language record
      it holds has a normal `ipa`. */
  lemma StartFromLoad(raw: seq<Entry>)
    ensures Normalized(Review.Start(NormalizeIpa(raw)).data)
    ensures |Review.Start(NormalizeIpa(raw)).data| == |raw|
  {
  }

}

=== FILE: options.dfy ===
/** The optional value used for JSON keys that may be missing or null. */
module Options {

  datatype Option<+T> = None | Some(value: T)

}

=== FILE: review.dfy ===
/**
 The review screen as a state machine over an explicit session record:
 the index clamp and card resynchronisation done while rendering, the flip
 toggle, and the previous/next navigation that grades the shown card from
 its dwell time.
 */
module Review {

  import opened Options
  import opened Vocabulary
  import opened Scheduling
  import opened DueQueue

  /** The session keys `current_index`, `card_flipped`, `start_time` (in
      milliseconds, absent until first set) and `current_cn` (absent until
      a card has been shown). */
  datatype Session = Session(currentIndex: nat, cardFlipped: bool, startTime: Option<int>, currentCn: Option<string>)

  /** A card is only ever remembered together with the instant it was shown. */
  predicate Valid(s: Session)
  {
    s.currentCn.Some? ==> s.startTime.Some?
  }

  /** The collection, the session and the API key typed into the sidebar. */
  datatype App = App(data: seq<Entry>, session: Session, apiKey: string)

  /** The state right after the collection has been loaded; `data` is what
      the loader returns, already normalised (see `Loading.StartFromLoad`). */
  function Start(data: seq<Entry>): (app: App)
    ensures app.data == data && Valid(app.session)
    ensures app.session.currentIndex == 0 && !app.session.cardFlipped
    ensures app.session.currentCn.None? && app.session.startTime.None? && app.apiKey == ""
  {
    App(data, Session(0, false, None, None), "")
  }

  datatype Direction = Prev | Next

  function Step(d: Direction): int
  {
    match d
    case Prev => -1
    case Next => 1
  }

  /** Moves the index one card along a queue of `total` cards, wrapping round
      at both ends. Python's `%` by a positive modulus and Dafny's agree: both
      return a value in [0, total). */
  function Advance(i: nat, d: Direction, total: nat): (r: nat)
    requires total > 0
    ensures r < total
    ensures i < total - 1 && d == Next ==> r == i + 1
    ensures 0 < i < total && d == Prev ==> r == i - 1
    ensures i == total - 1 && d == Next ==> r == 0
    ensures i == 0 && d == Prev ==> r == total - 1
  {
    (i + Step(d)) % total
  }

  /** Going one card forward and one card back returns to the same card. */
  lemma AdvanceBackAndForth(i: nat, total: nat)
    requires i < total
    ensures Advance(Advance(i, Next, total), Prev, total) == i
    ensures Advance(Advance(i, Prev, total), Next, total) == i
  {
  }

  /** Answers faster than this many milliseconds, without flipping, are easy. */
  const EasyBelowMs: int := 5000
  /** Answers slower than this many milliseconds are forgotten. */
  const ForgotAboveMs: int := 10000

  /** The automatic grade from the dwell time (milliseconds) and the flip flag. */
  function InferQuality(dwell: int, flipped: bool): (q: Quality)
    ensures q == Easy <==> dwell < 5000 && !flipped
    ensures q == Forgot <==> dwell > 10000
    ensures q == Fuzzy <==> dwell <= 10000 && (dwell >= 5000 || flipped)
  {
    if dwell < EasyBelowMs && !flipped then Easy
    else if dwell > ForgotAboveMs then Forgot
    else Fuzzy
  }

  /** Lingering longer never earns a better grade. */
  lemma InferQualityAntitoneInDwell(d1: int, d2: int, flipped: bool)
    requires d1 <= d2
    ensures Score(InferQuality(d2, flipped)) <= Score(InferQuality(d1, flipped))
  {
  }

  /** Flipping the card never earns a better grade. */
  lemma InferQualityFlipNeverHelps(dwell: int)
    ensures Score(InferQuality(dwell, true)) <= Score(InferQuality(dwell, false))
  {
  }

  /** Before a card is picked, an index left past the end of the due queue
      falls back to the first card. */
  function Clamp(s: Session, total: nat): (r: Session)
    ensures total > 0 ==> r.currentIndex < total
    ensures s.currentIndex < total ==> r == s
    ensures s.currentIndex >= total ==> r.currentIndex == 0
    ensures r.(currentIndex := s.currentIndex) == s
  {
    if s.currentIndex >= total then s.(currentIndex := 0) else s
  }

  /** When the rendered card is not the one the session remembers (or no
      timer runs yet), the card is remembered, its timer starts and it is
      shown face up. */
  function Resync(s: Session, cn: string, now: int): (r: Session)
    ensures Valid(r) && r.currentCn == Some(cn)
    ensures r.currentIndex == s.currentIndex
    ensures s.startTime.Some? && s.currentCn == Some(cn) ==> r == s
    ensures s.startTime.None? || s.currentCn != Some(cn) ==> r.startTime == Some(now) && !r.cardFlipped
  {
    if s.startTime.None? || s.currentCn != Some(cn) then
      s.(startTime := Some(now), currentCn := Some(cn), cardFlipped := false)
    else s
  }

  /** Re-rendering the same card does not restart its timer. */
  lemma ResyncIdempotent(s: Session, cn: string, t1: int, t2: int)
    ensures Resync(Resync(s, cn, t1), cn, t2) == Resync(s, cn, t1)
  {
  }

  /** The hidden flip button toggles the answer face and nothing else. */
  function Flip(s: Session): (r: Session)
    ensures r.cardFlipped == !s.cardFlipped
    ensures r.(cardFlipped := s.cardFlipped) == s
  {
    s.(cardFlipped := !s.cardFlipped)
  }

  lemma FlipInvolution(s: Session)
    ensures Flip(Flip(s)) == s
    ensures Valid(s) <==> Valid(Flip(s))
  {
  }

  datatype View = Idle | Card(entry: Entry, position: nat, total: nat)

  datatype Rendered = Rendered(session: Session, view: View)

  /** One render of the review screen at wall-clock millisecond `now`: the
      due queue is recomputed, the index is clamped, the card at the index
      is shown and the session resynchronised to it. With nothing due the
      screen is idle and the session left as it is. */
  function Render(app: App, now: int): (r: Rendered)
    ensures r.view.Idle? <==> forall i :: 0 <= i < |app.data| ==> !IsDue(app.data[i], WallSeconds(now))
    ensures r.view.Idle? ==> r.session == app.session
    ensures r.view.Card? ==>
              && r.view.total == |DueWords(app.data, WallSeconds(now))|
              && r.view.position < r.view.total
              && r.view.entry == DueWords(app.data, WallSeconds(now))[r.view.position]
              && r.view.entry in app.data
              && IsDue(r.view.entry, WallSeconds(now))
              && r.session.currentIndex == r.view.position
              && r.session.currentCn == Some(r.view.entry.cn)
              && Valid(r.session)
    ensures r.view.Card? && app.session.currentIndex < r.view.total ==> r.view.position == app.session.currentIndex
    ensures r.view.Card? && app.session.currentIndex >= r.view.total ==> r.view.position == 0
    ensures r.view.Card? ==> r.session == Resync(Clamp(app.session, r.view.total), r.view.entry.cn, now)
    ensures r.view.Card? && (app.session.startTime.None? || app.session.currentCn != Some(r.view.entry.cn)) ==>
              r.session.startTime == Some(now) && !r.session.cardFlipped
  {
    var q := DueWords(app.data, WallSeconds(now));
    if |q| == 0 then
      assert forall i :: 0 <= i < |app.data| ==> !IsDue(app.data[i], WallSeconds(now)) by {
        forall i | 0 <= i < |app.data|
          ensures !IsDue(app.data[i], WallSeconds(now))
        {
          assert multiset(q)[app.data[i]] == 0;
        }
      }
      Rendered(app.session, Idle)
    else
      var s := Clamp(app.session, |q|);
      var card := q[s.currentIndex];
      assert card in multiset(q);
      Rendered(Resync(s, card.cn, now), Card(card, s.currentIndex, |q|))
  }

  /** Rendering again within the same second, with no step in between,
      shows the same card at the same position and keeps its timer. */
  lemma RenderStable(app: App, t1: int, t2: int)
    requires WallSeconds(t1) == WallSeconds(t2)
    requires Render(app, t1).view.Card?
    ensures var r := Render(app, t1);
            Render(app.(session := r.session), t2) == r
  {
  }

  datatype NavOutcome = Resynced | Graded(quality: Quality, position: nat) | NotFound

  datatype Navigation = Navigation(app: App, outcome: NavOutcome)

  /** The previous/next button handler for the card `cn` rendered from a due
      queue of `total` cards, pressed at wall-clock millisecond `now`.
      - A session remembering another card only moves the index.
      - Otherwise the dwell time and the flip flag grade the card, the first
        entry keyed by `cn` is rescheduled, and the index moves modulo the
        queue length of the render, not of the updated collection.
      - When no entry is keyed by `cn` nothing changes. */
  function Navigate(app: App, cn: string, total: nat, d: Direction, now: int): (r: Navigation)
    requires total > 0 && Valid(app.session)
    ensures Valid(r.app.session) && r.app.apiKey == app.apiKey
    ensures |r.app.data| == |app.data|
    ensures forall j :: 0 <= j < |app.data| ==> r.app.data[j].cn == app.data[j].cn
    ensures r.app.session.currentCn == app.session.currentCn
    ensures r.outcome.Resynced? <==> app.session.currentCn != Some(cn)
    ensures r.outcome.Resynced? ==> r.app.data == app.data
    ensures r.outcome.NotFound? <==> app.session.currentCn == Some(cn) && !HasWord(app.data, cn)
    ensures r.outcome.NotFound? ==> r.app == app
    ensures !r.outcome.NotFound? ==>
              && r.app.session.currentIndex == Advance(app.session.currentIndex, d, total)
              && !r.app.session.cardFlipped
              && r.app.session.startTime == Some(now)
    ensures r.outcome.Graded? ==>
              && r.outcome.quality == InferQuality(now - app.session.startTime.value, app.session.cardFlipped)
              && r.outcome.position < |app.data|
              && app.data[r.outcome.position].cn == cn
              && (forall j :: 0 <= j < r.outcome.position ==> app.data[j].cn != cn)
              && r.app.data[r.outcome.position] ==
                 ReviewEntry(app.data[r.outcome.position], r.outcome.quality, WallSeconds(now))
              && forall j :: 0 <= j < |app.data| && j != r.outcome.position ==> r.app.data[j] == app.data[j]
    ensures app.session.currentIndex < total ==> r.app.session.currentIndex < total
  {
    var s := app.session;
    var moved := s.(currentIndex := Advance(s.currentIndex, d, total), cardFlipped := false, startTime := Some(now));
    if s.currentCn != Some(cn) then
      Navigation(app.(session := moved), Resynced)
    else
      var q := InferQuality(now - s.startTime.value, s.cardFlipped);
      match FindWord(app.data, cn)
      case None => Navigation(app, NotFound)
      case Some(g) =>
        var data := app.data[g := ReviewEntry(app.data[g], q, WallSeconds(now))];
        Navigation(App(data, moved, app.apiKey), Graded(q, g))
  }

  /** A graded press restarts the timer but leaves the graded word
      remembered, so the render that follows restarts the timer again, at
      the render instant, whenever it shows a different word. */
  lemma NavigateThenRenderRestartsTimer(app: App, cn: string, total: nat, d: Direction, t2: int, t3: int)
    requires total > 0 && Valid(app.session)
    requires Navigate(app, cn, total, d, t2).outcome.Graded?
    requires Render(Navigate(app, cn, total, d, t2).app, t3).view.Card?
    ensures var nav := Navigate(app, cn, total, d, t2);
            var r := Render(nav.app, t3);
            && nav.app.session.startTime == Some(t2)
            && nav.app.session.currentCn == Some(cn)
            && (r.view.entry.cn != cn ==> r.session.startTime == Some(t3) && !r.session.cardFlipped)
            && (r.view.entry.cn == cn ==> r.session.startTime == Some(t2))
  {
  }

  /** With unique words, a graded navigation changes exactly the entry keyed
      by the shown word, so the words stay unique. */
  lemma NavigateTouchesOnlyShownWord(app: App, cn: string, total: nat, d: Direction, now: int)
    requires total > 0 && Valid(app.session)
    requires UniqueWords(app.data)
    ensures var r := Navigate(app, cn, total, d, now);
            && UniqueWords(r.app.data)
            && forall j :: 0 <= j < |app.data| && app.data[j].cn != cn ==> r.app.data[j] == app.data[j]
  {
  }

  /** Pressing previous or next on the card just rendered always grades it:
      the render remembered that card and it is in the collection. The
      index stays inside the queue and the next dwell time is measured from
      the press. */
  lemma RenderThenNavigateGrades(app: App, t1: int, d: Direction, t2: int)
    requires Render(app, t1).view.Card?
    ensures var v := Render(app, t1).view;
            var r := Navigate(app.(session := Render(app, t1).session), v.entry.cn, v.total, d, t2);
            && r.outcome.Graded?
            && r.app.session.currentIndex < v.total
            && r.app.session.startTime == Some(t2)
  {
  }

}

=== FILE: scenarios.dfy ===
/**
 Concrete review scenarios worked through the model.
 */
module Scenarios {

  import opened Options
  import opened Vocabulary
  import opened Scheduling
  import opened DueQueue
  import opened Review

  function Word(cn: string, level: int, due: int): Entry
  {
    Entry(cn, map[], Some(level), due)
  }

  /** Level 2, overdue, answered easily: level 3, due in thirty minutes. */
  lemma EasyFromLevelTwo(now: int)
    ensures var r := ReviewEntry(Word("猫", 2, now - 100), Easy, now);
            LevelOf(r) == 3 && r.nextReview == now + 30 * 60
  {
  }

  /** Three seconds without flipping is easy; fifteen seconds is forgotten
      whether or not the card was flipped. */
  lemma DwellExamples(flipped: bool)
    ensures InferQuality(3000, false) == Easy
    ensures InferQuality(15000, flipped) == Forgot
    ensures InferQuality(3000, true) == Fuzzy
  {
  }

  function Abc(): seq<Entry>
  {
    [Word("A", 0, 10), Word("B", 0, 20), Word("C", 0, 30)]
  }

  /** A, B and C are due, A is shown and was answered after two seconds. */
  function AbcApp(): App
  {
    App(Abc(), Session(0, false, Some(100000), Some("A")), "")
  }

  lemma AbcNavigation()
    ensures Navigate(AbcApp(), "A", 3, Next, 102000).outcome == Graded(Easy, 0)
    ensures Navigate(AbcApp(), "A", 3, Next, 102000).app.data ==
            [Word("A", 1, 102 + 600), Word("B", 0, 20), Word("C", 0, 30)]
    ensures Navigate(AbcApp(), "A", 3, Next, 102000).app.session.currentIndex == 1
  {
    assert FindWord(Abc(), "A") == Some(0);
    assert InferQuality(2000, false) == Easy;
  }

  lemma AbcQueueAfterEasy()
    ensures DueWords([Word("A", 1, 702), Word("B", 0, 20), Word("C", 0, 30)], 102) ==
            [Word("B", 0, 20), Word("C", 0, 30)]
  {
    var b, c := Word("B", 0, 20), Word("C", 0, 30);
    var data := [Word("A", 1, 702), b, c];
    assert Due(data, 102) == [b, c] by {
      assert data[1..] == [b, c];
      assert [b, c][1..] == [c];
      assert Due([c], 102) == [c];
    }
    assert SortByReview([b, c]) == [b, c] by {
      assert [b, c][1..] == [c];
      assert SortByReview([c]) == [c];
    }
  }

  /** The index moves modulo the queue length of the render, so when the
      graded card leaves the due queue the card behind it is skipped: with
      A, B, C due and A answered easily from the first position, the next
      render shows C. */
  lemma EasyAnswerSkipsFollowingCard()
    ensures var nav := Navigate(AbcApp(), "A", 3, Next, 102000);
            var after := Render(nav.app, 102000);
            && nav.outcome == Graded(Easy, 0)
            && after.view.Card?
            && after.view.total == 2
            && after.view.entry.cn == "C"
  {
    var nav := Navigate(AbcApp(), "A", 3, Next, 102000);
    AbcNavigation();
    AbcQueueAfterEasy();
    assert WallSeconds(102000) == 102;
    assert IsDue(nav.app.data[1], 102);
  }

}

=== FILE: scheduling.dfy ===
/**
 The spaced-repetition rule: a review graded forgot, fuzzy or easy moves an
 entry's level and the instant at which it is due again.
 */
module Scheduling {

  import opened Options
  import opened Vocabulary

  /** The review grades 0 (forgot), 1 (fuzzy) and 2 (easy). */
  datatype Quality = Forgot | Fuzzy | Easy

  function Score(q: Quality): nat
  {
    match q
    case Forgot => 0
    case Fuzzy => 1
    case Easy => 2
  }

  /** A fuzzy answer postpones the entry by twelve hours. */
  const FuzzyMinutes: int := 720
  /** An easy answer postpones the entry by this many minutes per level. */
  const EasyMinutesPerLevel: int := 10
  const SecondsPerMinute: int := 60

  function Max(a: int, b: int): int
  {
    if a >= b then a else b
  }

  /** The level after a review graded `q`, from the stored level. */
  function NextLevel(level: int, q: Quality): int
  {
    match q
    case Forgot => 0
    case Fuzzy => Max(0, level - 1)
    case Easy => level + 1
  }

  /** The minutes until the entry is due again, from the new level. */
  function IntervalMinutes(q: Quality, newLevel: int): int
  {
    match q
    case Forgot => 0
    case Fuzzy => FuzzyMinutes
    case Easy => EasyMinutesPerLevel * newLevel
  }

  /** The update of one entry after a review graded `q` at wall-clock second
      `now`: only the level and the due instant change. */
  function ReviewEntry(e: Entry, q: Quality, now: int): (r: Entry)
    ensures r.cn == e.cn && r.langs == e.langs
    ensures r.level.Some?
    ensures q == Forgot ==> LevelOf(r) == 0 && r.nextReview == now
    ensures q == Fuzzy ==> LevelOf(r) == Max(0, LevelOf(e) - 1) && r.nextReview == now + 12 * 60 * 60
    ensures q == Easy ==> LevelOf(r) == LevelOf(e) + 1 && r.nextReview == now + 10 * 60 * LevelOf(r)
  {
    var level := NextLevel(LevelOf(e), q);
    e.(level := Some(level), nextReview := now + IntervalMinutes(q, level) * SecondsPerMinute)
  }

  /** Forgot and fuzzy never leave a negative level; easy does not either
      when the stored level was not negative. */
  lemma ReviewLevelNonNegative(e: Entry, q: Quality, now: int)
    requires q != Easy || LevelOf(e) >= 0
    ensures LevelOf(ReviewEntry(e, q, now)) >= 0
  {
  }

  /** A forgotten entry is due at once; a fuzzy or easy one (from a
      non-negative level) is not due again at the instant of the review,
      and becomes due exactly when its interval has passed. */
  lemma ReviewDueAgain(e: Entry, q: Quality, now: int, t: int)
    requires LevelOf(e) >= 0
    ensures q == Forgot ==> IsDue(ReviewEntry(e, q, now), now)
    ensures q != Forgot ==> !IsDue(ReviewEntry(e, q, now), now)
    ensures IsDue(ReviewEntry(e, q, now), t) <==>
            t - now >= IntervalMinutes(q, NextLevel(LevelOf(e), q)) * SecondsPerMinute
  {
  }

  /** A better grade never yields a lower level, for an entry whose stored
      level is not negative, and forgetting is never scheduled later than
      any other grade. */
  lemma ReviewMonotoneInQuality(e: Entry, q1: Quality, q2: Quality, now: int)
    requires LevelOf(e) >= 0
    requires Score(q1) <= Score(q2)
    ensures LevelOf(ReviewEntry(e, q1, now)) <= LevelOf(ReviewEntry(e, q2, now))
    ensures ReviewEntry(e, Forgot, now).nextReview <= ReviewEntry(e, q2, now).nextReview
  {
  }

  /** The linear easy interval stays below the fixed twelve-hour fuzzy
      interval up to level 70: below level 71 an easy answer brings the
      entry back sooner than a fuzzy one. */
  lemma EasySoonerThanFuzzy(e: Entry, now: int)
    ensures ReviewEntry(e, Easy, now).nextReview < ReviewEntry(e, Fuzzy, now).nextReview
            <==> LevelOf(e) < 71
  {
  }

  /** Successive easy reviews grow the interval linearly: the k-th easy
      answer in a row from level L schedules 10 * (L + k) minutes ahead. */
  lemma {:induction false} EasyStreak(e: Entry, k: nat, now: int)
    ensures LevelOf(EasyReviews(e, k, now)) == LevelOf(e) + k
    ensures k > 0 ==> EasyReviews(e, k, now).nextReview == now + 10 * 60 * (LevelOf(e) + k)
    ensures EasyReviews(e, k, now).cn == e.cn
  {
    if k > 0 {
      EasyStreak(e, k - 1, now);
    }
  }

  /** `k` easy reviews in a row, all at second `now`. */
  function EasyReviews(e: Entry, k: nat, now: int): Entry
  {
    if k == 0 then e else ReviewEntry(EasyReviews(e, k - 1, now), Easy, now)
  }

}

=== FILE: vocabulary.dfy ===
/**
 This module models one stored vocabulary entry of the flashcard collection:
 the Chinese word that keys it, one record per study language, the spaced
 repetition level and the instant at which it is due again.
 */
module Vocabulary {

  import opened Options

  /** The three study languages, the keys `ru`, `fr` and `en` of an entry. */
  datatype Lang = Ru | Fr | En

  const Langs: set<Lang> := {Ru, Fr, En}

  /** The phonetic transcription of a language record as it may be stored:
      the `ipa` key may be missing, hold null, or hold a string. */
  datatype Ipa = Absent | Null | Text(text: string)

  datatype LangRecord = LangRecord(translation: string, ipa: Ipa, sound: string, memo: string)

  /** A vocabulary entry. `level` is `None` when the stored record has no
      `level` key; `nextReview` is the due instant in whole seconds. */
  datatype Entry = Entry(cn: string, langs: map<Lang, LangRecord>, level: Option<int>, nextReview: int)

  const MillisPerSecond: int := 1000

  /** The wall clock, read in milliseconds, as the whole seconds that the
      `%Y-%m-%d %H:%M:%S` timestamps keep. */
  function WallSeconds(nowMs: int): int
  {
    nowMs / MillisPerSecond
  }

  /** A missing level counts as level 0. */
  function LevelOf(e: Entry): int
  {
    match e.level
    case Some(l) => l
    case None => 0
  }

  predicate IsDue(e: Entry, now: int)
  {
    e.nextReview <= now
  }

  /** Some entry of the collection is keyed by `cn`. */
  predicate HasWord(data: seq<Entry>, cn: string)
  {
    exists i :: 0 <= i < |data| && data[i].cn == cn
  }

  /** No two entries of the collection share their Chinese word. */
  predicate UniqueWords(data: seq<Entry>)
  {
    forall i, j :: 0 <= i < j < |data| ==> data[i].cn != data[j].cn
  }

  /** The position of the first entry keyed by `cn`, as the generator
      expression over `enumerate` finds it, or `None` when there is none. */
  function FindWord(data: seq<Entry>, cn: string): (r: Option<nat>)
    ensures r.None? <==> !HasWord(data, cn)
    ensures r.Some? ==> r.value < |data| && data[r.value].cn == cn
    ensures r.Some? ==> forall j :: 0 <= j < r.value ==> data[j].cn != cn
  {
    if |data| == 0 then None
    else if data[0].cn == cn then Some(0)
    else
      match FindWord(data[1..], cn)
      case None => None
      case Some(i) => Some(i + 1)
  }

  /** In a collection whose words are unique, the entry found is the only
      one keyed by `cn`. */
  lemma FindWordIsOnlyMatch(data: seq<Entry>, cn: string, j: nat)
    requires UniqueWords(data)
    requires j < |data| && data[j].cn == cn
    ensures FindWord(data, cn) == Some(j)
  {
  }

}
